=== FILE: README.md ===
# Thumbly AI: a Dafny model of the thumbnail generator

Thumbly AI is a Next.js web app that makes YouTube thumbnails. The user gives a video topic and picks a colour scheme, a font pairing and a style. An image upload is optional. A server action validates the request and runs a Genkit flow. The flow builds a multimodal prompt and asks an image model for one picture.

Once a thumbnail exists, it can be regenerated. In that case the previous image, plus any new upload, is sent back with a refinement instruction. The result can be downloaded at 1280x720 or 1920x1080. The export letterboxes the image onto a black canvas and saves it under a deterministic file name. A separate switch toggles light and dark mode and persists the choice.

The model has one Dafny module per source file:

| module | file | form |
|---|---|---|
| `Common` | shared | option and truthiness, prompt parts, model replies, substring predicates |
| `Constants` | `src/lib/constants.ts` | option lists and the two resolutions |
| `GenerateThumbnail` | `src/ai/flows/generate-thumbnail.ts` | functions: prompt assembly and the flow |
| `RegenerateThumbnail` | `src/ai/flows/regenerate-thumbnail.ts` | functions, plus the push-style builder as a method |
| `Actions` | `src/app/actions.ts` | functions: validation, error aggregation, exception mapping |
| `ThumbnailDisplay` | `src/components/core/thumbnail-display.tsx` | function: which view the panel renders |
| `DownloadButton` | `src/components/core/download-button.tsx` | contain fit, file name, a `Canvas` class, the handler as a method |
| `ModeToggle` | `src/components/core/mode-toggle.tsx` | a class holding the theme state, the stored value and the page class |
| `GeneratorClient` | `src/components/core/thumbnail-generator-client.tsx` | form schema, payloads, a class holding the thumbnail and error state |

Some dependencies are outside the model and appear as parameters:

- The image model is a function parameter `model: Prompt -> ModelReply`. A reply is either an image URL or a thrown value.
- The URL check of the zod schema library is a parameter `isUrl: string -> bool`.
- The browser's answers to the download handler are parameters:
  - whether the image decoded, and at what size;
  - whether a 2D context was obtained;
  - whether PNG encoding succeeded.

"The flow is not called when validation fails" is stated as non-interference: on an invalid request the action's answer is the same for any two models.

The proofs show some consequences of the code as written:

- **The failure view's "Try Again" button sends nothing and changes no state.** A failed generation clears the thumbnail. "Try Again" calls the regenerate handler, which without a thumbnail only shows its "Cannot Regenerate" toast. `GeneratorClient.TryAgainAfterFailedGeneration` proves this.
- **The server does not enforce an upper bound on the topic length.** The server-side schema checks only a minimum of 3 characters and the URL shape of the image fields. The upper bound of 100 characters and the non-empty selects are checked only by the client form. The model follows the code: `Actions.GenerateIssues` rejects exactly the topics under 3 characters. `GeneratorClient.FormAccepts` refuses a topic outside [3, 100] characters and an empty select.

## Model

| member | source | states |
|---|---|---|
| Constants.OptionListsUsable | src/lib/constants.ts:1-31 | each option list has a default first entry, no empty entry and no duplicates |
| Constants.ResolutionsAreSixteenByNine | src/lib/constants.ts:33-36 | the HD and FHD sizes are 1280x720 and 1920x1080, both 16:9 and positive |
| GenerateThumbnail.GenerationPrompt | src/ai/flows/generate-thumbnail.ts:90-99 | a plain string prompt exactly when no non-empty upload is given; otherwise two parts, the upload's media first and the text second |
| GenerateThumbnail.GenerationTextShape | src/ai/flows/generate-thumbnail.ts:74-99 | the instruction text opens with the base text; the "User Image Provided" header follows it iff there is an upload, and the "No User Image" header iff there is none |
| GenerateThumbnail.BasePromptEmbedsParams | src/ai/flows/generate-thumbnail.ts:74-88 | the base text contains the topic, colour scheme, font pairing and style |
| GenerateThumbnail.EmptyUploadIsNoUpload | src/ai/flows/generate-thumbnail.ts:92 | an empty upload string yields the same prompt as no upload, a plain string |
| GenerateThumbnail.GenerateThumbnailFlow | src/ai/flows/generate-thumbnail.ts:101-108 | the flow returns iff the model produced an image, with that URL as the thumbnail; otherwise it rethrows what the model threw |
| RegenerateThumbnail.RegenerationParts | src/ai/flows/regenerate-thumbnail.ts:98-116 | previous thumbnail first, then the upload only when present, then exactly one text part last; 3 parts with an upload, 2 without; the text opens with the base text |
| RegenerateThumbnail.BuildPromptParts | src/ai/flows/regenerate-thumbnail.ts:98-116 | the push/append construction yields exactly the parts list above |
| RegenerateThumbnail.RegenerationTextShape | src/ai/flows/regenerate-thumbnail.ts:104-115 | the multi-image header follows the base text iff there is an upload, the single-image header iff there is none; the multi-image text names the FIRST image as the previous thumbnail and the SECOND as the upload |
| RegenerateThumbnail.BaseRegenerationEmbedsParams | src/ai/flows/regenerate-thumbnail.ts:84-96 | the base regeneration text contains the topic and the three selections |
| RegenerateThumbnail.EmptyUploadIsNoUpload | src/ai/flows/regenerate-thumbnail.ts:104 | an empty upload string yields the same parts as no upload |
| RegenerateThumbnail.RegenerateThumbnailFlow | src/ai/flows/regenerate-thumbnail.ts:118-126 | returns iff the model produced an image, with that URL as `thumbnail`; otherwise it rethrows |
| Actions.Join | src/app/actions.ts:26 | the joined text starts with the first message and is non-empty when that message is |
| Actions.JoinEmbedsEach | src/app/actions.ts:26 | every message occurs in the joined text, so no validation error is dropped |
| Actions.GenerateIssues | src/app/actions.ts:8-14 | the topic message is reported iff the topic is under 3 characters; the upload message iff an upload is present and not URL-shaped; nothing else is reported; each failing check is reported exactly once, the topic message first |
| Actions.RegenerateIssues | src/app/actions.ts:16-19 | the inherited checks plus the previous-thumbnail message iff that thumbnail is not URL-shaped; no other message is reported; the previous-thumbnail message, when present, comes last; each failing check is reported exactly once, the topic message first |
| Actions.GenerateThumbnailAction | src/app/actions.ts:21-37 | invalid input gives the ", "-joined messages; success exactly when the input is valid and the flow returns, carrying the flow's output unchanged; a throw gives the "Failed to generate thumbnail. " prefix plus the error's message; an error string is never empty |
| Actions.RegenerateThumbnailAction | src/app/actions.ts:39-55 | the same for regeneration, with the "Failed to regenerate thumbnail. " prefix |
| Actions.ThrownMessage | src/app/actions.ts:34 | an `Error` contributes its own message; any other thrown value the non-empty "An unknown error occurred." |
| Actions.InvalidRequestsNeverReachTheModel | src/app/actions.ts:24-27 | on an invalid request the result does not depend on the model |
| Actions.ShortTopicIsRejected | src/app/actions.ts:9 | a topic under 3 characters is refused, and the error contains the topic message |
| Actions.ErrorsAreAggregated | src/app/actions.ts:26 | a short topic and a bad upload give exactly the two messages joined by ", " in schema order |
| Actions.MalformedPreviousIsRejected | src/app/actions.ts:17 | a previous thumbnail that is not URL-shaped is refused, and the error names it |
| Actions.ValidRequestsForwardTheModel | src/app/actions.ts:29-36 | on a valid request: an image gives success with that URL; an Error gives the prefix plus its message; any other thrown value gives the prefix plus "An unknown error occurred." |
| Actions.ValidRegenerationsForwardTheModel | src/app/actions.ts:47-54 | the same for regeneration |
| ThumbnailDisplay.FilenamePrefix | src/components/core/thumbnail-display.tsx:30 | the topic when non-empty, otherwise the non-empty fallback |
| ThumbnailDisplay.DownloadDisabled | src/components/core/download-button.tsx:93 | a button told to be disabled is inert, and an enabled button always has a non-empty image to export |
| ThumbnailDisplay.Display | src/components/core/thumbnail-display.tsx:32-131 | exactly one of loading, failure, placeholder or thumbnail view, each selected by an iff on the props; the failure view shows the error and disables Try Again while regenerating; the thumbnail view gives the overlay, dimming, Regenerate flag and the HD then FHD download buttons, each disabled iff regenerating, generating or in error |
| ThumbnailDisplay.FailedRegenerationKeepsThumbnail | src/components/core/thumbnail-display.tsx:86-130 | with a thumbnail and an error, the thumbnail stays, dimmed, under an error overlay; downloads are off and Regenerate is on |
| DownloadButton.ContainFit | src/components/core/download-button.tsx:45-65 | the image is scaled to a positive size, centred, inside the canvas, with the same aspect ratio; a wider image spans the canvas width, any other spans its height |
| DownloadButton.ContainFitIsMinScale | src/components/core/download-button.tsx:45-65 | the scale used is min(canvas width / image width, canvas height / image height) |
| DownloadButton.ContainFitIsLargest | src/components/core/download-button.tsx:45-65 | no uniform scale that still fits the canvas is larger than the one chosen |
| DownloadButton.SameShapeFillsCanvas | src/components/core/download-button.tsx:51-61 | an image with the canvas's aspect ratio fills it exactly with zero offsets |
| DownloadButton.Sanitize | src/components/core/download-button.tsx:74 | same length; every output char is a lower-case ASCII letter, a digit or '_'; '_' exactly where the input char is not an ASCII letter or digit; upper-case letters are lowered and safe chars kept |
| DownloadButton.SanitizeIdempotent | src/components/core/download-button.tsx:74 | sanitising a sanitised prefix changes nothing |
| DownloadButton.Decimal | src/components/core/download-button.tsx:75 | a non-empty run of digits with no leading zero except for 0 itself |
| DownloadButton.DecimalRoundTrip | src/components/core/download-button.tsx:75 | reading the decimal rendering back gives the number |
| DownloadButton.FileName | src/components/core/download-button.tsx:75 | starts with "thumbly-ai-" and ends with ".png" |
| DownloadButton.FileNameRoundTrip | src/components/core/download-button.tsx:75 | the file name determines the sanitised prefix, the width and the height |
| DownloadButton.FileNamesOfTheTwoResolutions | src/components/core/download-button.tsx:75 | the two names the display can produce end in "-1280x720.png" and "-1920x1080.png" |
| DownloadButton.Canvas.constructor | src/components/core/download-button.tsx:29 | a new canvas is 300x150 with nothing drawn |
| DownloadButton.Canvas.SetSize | src/components/core/download-button.tsx:31-32 | setting the size changes the size and clears the drawing |
| DownloadButton.Canvas.FillRect | src/components/core/download-button.tsx:42-43 | appends one fill of the given colour and rectangle, size unchanged |
| DownloadButton.Canvas.DrawImage | src/components/core/download-button.tsx:68 | appends one image draw with the given source and target |
| DownloadButton.HandleDownload | src/components/core/download-button.tsx:21-90 | an empty URI does nothing; load, context and encoding failures each stop at their own step; a save happens iff all succeed, at the resolution's size, named by `FileName`, after exactly a full black fill and one contain-fitted draw of the whole image |
| ModeToggle.Flip | src/components/core/mode-toggle.tsx:39 | the toggled theme differs from the current one |
| ModeToggle.FlipTwice | src/components/core/mode-toggle.tsx:39 | toggling twice restores the theme |
| ModeToggle.InitialTheme | src/components/core/mode-toggle.tsx:20-26 | the stored theme wins; with none, dark iff the system prefers dark |
| ModeToggle.ModeToggle.constructor | src/components/core/mode-toggle.tsx:10 | the state starts as light and storage and page are untouched |
| ModeToggle.ModeToggle.Initialize | src/components/core/mode-toggle.tsx:12-35 | adopts the initial theme, sets the dark class to match, and writes storage only when nothing was stored; afterwards state, storage and page agree |
| ModeToggle.ModeToggle.Toggle | src/components/core/mode-toggle.tsx:37-44 | flips the theme, stores it (one more write) and restyles the page; afterwards state, storage and page agree |
| ModeToggle.ToggleTwice | src/components/core/mode-toggle.tsx:37-44 | two toggles restore theme, class and stored value, after writing the flipped theme and then the original |
| GeneratorClient.NormalizeUpload | src/components/core/thumbnail-generator-client.tsx:53 | an empty or absent upload becomes absent; any other upload is passed unchanged |
| GeneratorClient.FormAccepts | src/components/core/thumbnail-generator-client.tsx:18-24 | a topic outside 3 to 100 characters, an empty colour scheme, font pairing or style, and a non-empty upload that is not URL-shaped are each refused; whatever is accepted passes the server's generation schema once normalised |
| GeneratorClient.GeneratePayload | src/components/core/thumbnail-generator-client.tsx:51-54 | the parameters are kept; only an empty upload is changed, never left as ""; the model sees the same prompt as with the form's own values |
| GeneratorClient.RegeneratePayload | src/components/core/thumbnail-generator-client.tsx:75-79 | the parameters and the thumbnail on screen are sent; only an empty upload is changed, never left as ""; the model gets the same parts as with the form's own values |
| GeneratorClient.FormAcceptedPassesServerValidation | src/components/core/thumbnail-generator-client.tsx:18-24 | whatever the form accepts passes the server's generation schema; a regeneration passes too iff the previous thumbnail is URL-shaped |
| GeneratorClient.NonEmptySelectionsDecideOnTopicAlone | src/components/core/thumbnail-generator-client.tsx:18-24 | with any non-empty colour scheme, font pairing and style, and an upload that is absent, empty or URL-shaped, the form accepts iff the topic has 3 to 100 characters (2 and 101 rejected, 3 and 100 accepted) |
| GeneratorClient.OfferedSelectionsDecideOnTopicAlone | src/components/core/thumbnail-generator-client.tsx:36-42 | the same for every entry the three option lists offer, the defaults included |
| GeneratorClient.ThumbnailGenerator.constructor | src/components/core/thumbnail-generator-client.tsx:29-30 | no thumbnail and no error initially |
| GeneratorClient.ThumbnailGenerator.HandleGenerate | src/components/core/thumbnail-generator-client.tsx:47-65 | sends the normalised payload; a failure records the error and drops the thumbnail; a success shows the new thumbnail with no error |
| GeneratorClient.ThumbnailGenerator.HandleRegenerate | src/components/core/thumbnail-generator-client.tsx:67-89 | without a thumbnail nothing is sent and nothing changes; otherwise the current thumbnail is sent back; a failure records the error and keeps the thumbnail; a success replaces it and clears the error |
| GeneratorClient.TryAgainAfterFailedGeneration | src/components/core/thumbnail-generator-client.tsx:56-58 | after a failed generation the failure view shows the action's error; its Try Again sends nothing and the view afterwards is the same |
| GeneratorClient.RegenerationFailureKeepsThumbnail | src/components/core/thumbnail-generator-client.tsx:81-83 | after a successful generation and a failed regeneration, the old thumbnail stays with an error overlay and both downloads are disabled |

## Left out

- The image model, Genkit and the network are outside the model. The model is a function parameter, and a reply is either an image URL or a thrown value.
- The flows' `media.url!` is not modelled. A reply that carries media without a URL would make a flow return an output whose data URI is `undefined`; the model's replies always carry a URL.
- The prompts declared with `definePrompt` and their Handlebars templates are not modelled, since the flows never use them.
- The fixed prose of the prompts is abbreviated to short constants. Kept exactly are:
  - the order of the fragments;
  - the interpolated parameters;
  - the "INSTRUCTION" headers that tell the branches apart;
  - the FIRST/SECOND image role lines.
- The URL check of zod is not modelled; it is the parameter `isUrl`.
- Lengths are counted in Unicode characters. JavaScript counts UTF-16 code units, both in zod's length checks and in `replace`/`toLowerCase`, so the two differ for astral characters.
- DownloadButton.Sanitize is modelled on ASCII letters only. `toLowerCase` also lowers non-ASCII letters, but every non-ASCII char has already become '_' by then.
- DownloadButton.ContainFit uses exact real arithmetic, not IEEE doubles. An image of zero width or height (NaN or infinite aspect ratios) is excluded by its precondition.
- DownloadButton.HandleDownload requires a positive resolution. A zero-size canvas would divide by zero in the source.
- The download handler's DOM and toast effects are left out: the anchor element, the click, `console.error` and the toasts. The handler's outcome and drawing are modelled instead.
- Toasts are left out in the client too.
- React's `useTransition` pending flags are inputs of `ThumbnailDisplay.Display`, not state. Each handler's completion is one atomic step, so overlapping requests and their interleavings are not modelled.
- The markup, icons and CSS classes are left out, as are `thumbnail-form.tsx`, the page, the header, the footer and the loading indicator.
- ModeToggle.InitialTheme takes the stored value as `Option<Theme>`. The source casts any non-empty stored string to a theme without checking it, and that case is not modelled.
- No "cover" or stretch fit exists in the code; only the contain fit is modelled.

=== FILE: actions.dfy ===
/**
 * The server actions (src/app/actions.ts): validate the request, call the
 * flow only when validation passes, and turn whatever the flow throws into
 * a tagged `{error}` result.
 *
 * The URL check of the schema library is the parameter `isUrl`; the image
 * model is the parameter `model`, handed through to the flow.
 */
module Actions {
  import opened Common
  import G = GenerateThumbnail
  import R = RegenerateThumbnail

  /** `Output | {error: string}`. */
  datatype ActionResult<+T> = Success(value: T) | Failure(error: string)

  const TopicTooShort: string := "Video topic must be at least 3 characters"
  const InvalidUpload: string := "Invalid uploaded image data URI"
  const InvalidPrevious: string := "Invalid previous thumbnail data URI"
  const UnknownError: string := "An unknown error occurred."
  const GenerateFailed: string := "Failed to generate thumbnail. "
  const RegenerateFailed: string := "Failed to regenerate thumbnail. "

  /** `messages.join(sep)`. */
  function Join(messages: seq<string>, sep: string): (joined: string)
    ensures messages != [] ==> StartsWith(joined, messages[0])
    ensures messages != [] && messages[0] != "" ==> joined != ""
  {
    if |messages| == 0 then ""
    else if |messages| == 1 then messages[0]
    else
      var rest := sep + Join(messages[1..], sep);
      StartsWithConcat(messages[0], rest);
      messages[0] + rest
  }

  /** Every joined message can be found in the joined text: errors are aggregated, not dropped. */
  lemma {:induction false} JoinEmbedsEach(messages: seq<string>, sep: string, i: nat)
    requires i < |messages|
    ensures Embeds(Join(messages, sep), messages[i])
  {
    if |messages| == 1 {
      assert OccursAt(Join(messages, sep), 0, messages[0]);
    } else if i == 0 {
      EmbedsConcat(messages[0], sep + Join(messages[1..], sep));
    } else {
      JoinEmbedsEach(messages[1..], sep, i - 1);
      EmbedsPrepended(sep, Join(messages[1..], sep), messages[i]);
      EmbedsPrepended(messages[0], sep + Join(messages[1..], sep), messages[i]);
    }
  }

  /** The issues `GenerateInputSchema.safeParse` reports, in the order of the schema's keys. */
  function GenerateIssues(data: G.GenerateInput, isUrl: string -> bool): (issues: seq<string>)
    ensures TopicTooShort in issues <==> |data.params.videoTopic| < 3
    ensures InvalidUpload in issues
        <==> data.uploadedImageDataUri.Some? && !isUrl(data.uploadedImageDataUri.value)
    ensures forall m :: m in issues ==> m == TopicTooShort || m == InvalidUpload
    // each failing check once, in the order of the schema's keys
    ensures |issues| == (if |data.params.videoTopic| < 3 then 1 else 0)
                      + (if data.uploadedImageDataUri.Some? && !isUrl(data.uploadedImageDataUri.value) then 1 else 0)
    ensures |data.params.videoTopic| < 3 ==> issues[0] == TopicTooShort
  {
    (if |data.params.videoTopic| < 3 then [TopicTooShort] else [])
    + (if data.uploadedImageDataUri.Some? && !isUrl(data.uploadedImageDataUri.value) then [InvalidUpload] else [])
  }

  /** `RegenerateInputSchema` adds the previous thumbnail's URL check after the inherited keys. */
  function RegenerateIssues(data: R.RegenerateInput, isUrl: string -> bool): (issues: seq<string>)
    ensures TopicTooShort in issues <==> |data.params.videoTopic| < 3
    ensures InvalidUpload in issues
        <==> data.uploadedImageDataUri.Some? && !isUrl(data.uploadedImageDataUri.value)
    ensures InvalidPrevious in issues <==> !isUrl(data.previousThumbnail)
    ensures forall m :: m in issues ==> m == TopicTooShort || m == InvalidUpload || m == InvalidPrevious
    // `extend` appends the new key after the inherited ones
    ensures InvalidPrevious in issues ==> issues[|issues| - 1] == InvalidPrevious
    ensures |issues| == (if |data.params.videoTopic| < 3 then 1 else 0)
                      + (if data.uploadedImageDataUri.Some? && !isUrl(data.uploadedImageDataUri.value) then 1 else 0)
                      + (if !isUrl(data.previousThumbnail) then 1 else 0)
    ensures |data.params.videoTopic| < 3 ==> issues[0] == TopicTooShort
  {
    GenerateIssues(G.GenerateInput(data.params, data.uploadedImageDataUri), isUrl)
    + (if !isUrl(data.previousThumbnail) then [InvalidPrevious] else [])
  }

  /** The text a caught value contributes: an `Error`'s message, or a fixed fallback. */
  function ThrownMessage(thrown: Thrown): (message: string)
    ensures thrown.ErrorObject? ==> message == thrown.message
    ensures thrown.OtherValue? ==> message == UnknownError && message != ""
  {
    match thrown
    case ErrorObject(message) => message
    case OtherValue => UnknownError
  }

  /** `generateThumbnailAction`. */
  function GenerateThumbnailAction(data: G.GenerateInput, isUrl: string -> bool, model: Prompt -> ModelReply)
    : (r: ActionResult<G.GenerateOutput>)
    ensures GenerateIssues(data, isUrl) != [] ==> r == Failure(Join(GenerateIssues(data, isUrl), ", "))
    ensures r.Success? ==> GenerateIssues(data, isUrl) == [] && G.GenerateThumbnailFlow(data, model) == Returned(r.value)
    ensures GenerateIssues(data, isUrl) == [] && G.GenerateThumbnailFlow(data, model).Returned? ==>
      r == Success(G.GenerateThumbnailFlow(data, model).value)
    ensures GenerateIssues(data, isUrl) == [] && G.GenerateThumbnailFlow(data, model).Threw? ==>
      r == Failure(GenerateFailed + ThrownMessage(G.GenerateThumbnailFlow(data, model).thrown))
    ensures r.Failure? ==> r.error != ""
  {
    var issues := GenerateIssues(data, isUrl);
    if issues != [] then
      Failure(Join(issues, ", "))
    else
      match G.GenerateThumbnailFlow(data, model)
      case Returned(output) => Success(output)
      case Threw(thrown) => Failure(GenerateFailed + ThrownMessage(thrown))
  }

  /** `regenerateThumbnailAction`. */
  function RegenerateThumbnailAction(data: R.RegenerateInput, isUrl: string -> bool, model: Prompt -> ModelReply)
    : (r: ActionResult<R.RegenerateOutput>)
    ensures RegenerateIssues(data, isUrl) != [] ==> r == Failure(Join(RegenerateIssues(data, isUrl), ", "))
    ensures r.Success? ==> RegenerateIssues(data, isUrl) == [] && R.RegenerateThumbnailFlow(data, model) == Returned(r.value)
    ensures RegenerateIssues(data, isUrl) == [] && R.RegenerateThumbnailFlow(data, model).Returned? ==>
      r == Success(R.RegenerateThumbnailFlow(data, model).value)
    ensures RegenerateIssues(data, isUrl) == [] && R.RegenerateThumbnailFlow(data, model).Threw? ==>
      r == Failure(RegenerateFailed + ThrownMessage(R.RegenerateThumbnailFlow(data, model).thrown))
    ensures r.Failure? ==> r.error != ""
  {
    var issues := RegenerateIssues(data, isUrl);
    if issues != [] then
      Failure(Join(issues, ", "))
    else
      match R.RegenerateThumbnailFlow(data, model)
      case Returned(output) => Success(output)
      case Threw(thrown) => Failure(RegenerateFailed + ThrownMessage(thrown))
  }

  /**
   * A request that fails validation never reaches the flow: the answer is
   * the same whatever the image model would have done.
   */
  lemma InvalidRequestsNeverReachTheModel(
    gen: G.GenerateInput, regen: R.RegenerateInput, isUrl: string -> bool,
    model1: Prompt -> ModelReply, model2: Prompt -> ModelReply)
    ensures GenerateIssues(gen, isUrl) != [] ==>
      GenerateThumbnailAction(gen, isUrl, model1) == GenerateThumbnailAction(gen, isUrl, model2)
    ensures RegenerateIssues(regen, isUrl) != [] ==>
      RegenerateThumbnailAction(regen, isUrl, model1) == RegenerateThumbnailAction(regen, isUrl, model2)
  {
  }

  /** A topic under three characters is refused, and the refusal names the reason. */
  lemma ShortTopicIsRejected(data: G.GenerateInput, isUrl: string -> bool, model: Prompt -> ModelReply)
    requires |data.params.videoTopic| < 3
    ensures GenerateThumbnailAction(data, isUrl, model).Failure?
    ensures Embeds(GenerateThumbnailAction(data, isUrl, model).error, TopicTooShort)
  {
    var issues := GenerateIssues(data, isUrl);
    assert issues[0] == TopicTooShort;
    JoinEmbedsEach(issues, ", ", 0);
  }

  /** Two failing checks are both reported, joined by ", " in schema order. */
  lemma ErrorsAreAggregated(data: G.GenerateInput, isUrl: string -> bool, model: Prompt -> ModelReply)
    requires |data.params.videoTopic| < 3
    requires data.uploadedImageDataUri.Some? && !isUrl(data.uploadedImageDataUri.value)
    ensures GenerateThumbnailAction(data, isUrl, model) == Failure(TopicTooShort + ", " + InvalidUpload)
  {
    var issues := GenerateIssues(data, isUrl);
    assert issues == [TopicTooShort, InvalidUpload];
    assert issues[1..] == [InvalidUpload];
    assert Join(issues, ", ") == TopicTooShort + (", " + InvalidUpload);
  }

  /**
   * A malformed previous thumbnail is refused whatever else the request
   * holds, and the refusal names it.
   */
  lemma MalformedPreviousIsRejected(data: R.RegenerateInput, isUrl: string -> bool, model: Prompt -> ModelReply)
    requires !isUrl(data.previousThumbnail)
    ensures RegenerateThumbnailAction(data, isUrl, model).Failure?
    ensures Embeds(RegenerateThumbnailAction(data, isUrl, model).error, InvalidPrevious)
  {
    var issues := RegenerateIssues(data, isUrl);
    assert issues[|issues| - 1] == InvalidPrevious;
    JoinEmbedsEach(issues, ", ", |issues| - 1);
  }

  /**
   * On a valid request the answer is the flow's output unchanged when the
   * model produced an image, and the prefixed message otherwise.
   */
  lemma ValidRequestsForwardTheModel(data: G.GenerateInput, isUrl: string -> bool, model: Prompt -> ModelReply)
    requires GenerateIssues(data, isUrl) == []
    ensures var reply := model(G.GenerationPrompt(data));
      match reply
      case Generated(url) => GenerateThumbnailAction(data, isUrl, model) == Success(G.GenerateOutput(url))
      case Raised(ErrorObject(m)) => GenerateThumbnailAction(data, isUrl, model) == Failure(GenerateFailed + m)
      case Raised(OtherValue) =>
        GenerateThumbnailAction(data, isUrl, model) == Failure(GenerateFailed + UnknownError)
  {
  }

  lemma ValidRegenerationsForwardTheModel(data: R.RegenerateInput, isUrl: string -> bool, model: Prompt -> ModelReply)
    requires RegenerateIssues(data, isUrl) == []
    ensures var reply := model(Parts(R.RegenerationParts(data)));
      match reply
      case Generated(url) => RegenerateThumbnailAction(data, isUrl, model) == Success(R.RegenerateOutput(url))
      case Raised(ErrorObject(m)) => RegenerateThumbnailAction(data, isUrl, model) == Failure(RegenerateFailed + m)
      case Raised(OtherValue) =>
        RegenerateThumbnailAction(data, isUrl, model) == Failure(RegenerateFailed + UnknownError)
  {
    var flow := R.RegenerateThumbnailFlow(data, model);
    assert RegenerateThumbnailAction(data, isUrl, model)
        == if flow.Returned? then Success(flow.value) else Failure(RegenerateFailed + ThrownMessage(flow.thrown));
  }
}

=== FILE: common.dfy ===
/**
 * Shared vocabulary of the thumbnail app: optional values with JavaScript
 * truthiness, the parts of a prompt sent to the image model, the model's
 * reply, thrown values, and two small predicates on strings.
 */
module Common {

  datatype Option<+T> = None | Some(value: T)

  /** A JavaScript `string | undefined` tested with `if (s)`: the empty string is falsy. */
  predicate Truthy(s: Option<string>)
  {
    s.Some? && s.value != ""
  }

  /** The video description shared by every request. */
  datatype Params = Params(videoTopic: string, colorScheme: string, fontPairing: string, style: string)

  /** One entry of a multimodal prompt: `{media: {url}}` or `{text}`. */
  datatype Part = Media(url: string) | Text(text: string)

  /**
   * The sentence tail with which every instruction suffix restates the four
   * parameters: Video Topic ("..."), Color Scheme ("..."), Font Pairing
   * ("..."), and Style ("...").
   */
  function ParameterRecap(p: Params): string
  {
    "Video Topic (\"" + p.videoTopic + "\"), Color Scheme (\"" + p.colorScheme
      + "\"), Font Pairing (\"" + p.fontPairing + "\"), and Style (\"" + p.style + "\")"
  }

  /** What `ai.generate` is given as `prompt`: a plain string or an ordered list of parts. */
  datatype Prompt = PlainText(text: string) | Parts(parts: seq<Part>)

  /** A value thrown by JavaScript code: an `Error` (with its message) or anything else. */
  datatype Thrown = ErrorObject(message: string) | OtherValue

  /**
   * The outcome of the external image model for one prompt: the URL of the
   * returned media, or a throw. A missing image (the `media.url!` dereference
   * failing) is one of the throws.
   */
  datatype ModelReply = Generated(url: string) | Raised(thrown: Thrown)

  /** The outcome of a flow: the value it returns, or what it throws. */
  datatype FlowResult<+T> = Returned(value: T) | Threw(thrown: Thrown)

  predicate StartsWith(s: string, prefix: string)
  {
    |prefix| <= |s| && s[..|prefix|] == prefix
  }

  /** `h` occurs in `s` starting at index `k`. */
  predicate OccursAt(s: string, k: int, h: string)
  {
    0 <= k && k + |h| <= |s| && s[k..k + |h|] == h
  }

  /** `needle` is a contiguous piece of `s`. */
  ghost predicate Embeds(s: string, needle: string)
  {
    exists k :: OccursAt(s, k, needle)
  }

  lemma EmbedsConcat(a: string, b: string)
    ensures Embeds(a + b, a) && Embeds(a + b, b)
  {
    assert OccursAt(a + b, 0, a);
    assert (a + b)[|a|..|a| + |b|] == b;
    assert OccursAt(a + b, |a|, b);
  }

  lemma EmbedsTransitive(s: string, t: string, u: string)
    requires Embeds(s, t) && Embeds(t, u)
    ensures Embeds(s, u)
  {
    var i :| OccursAt(s, i, t);
    var j :| OccursAt(t, j, u);
    assert t == s[i..i + |t|];
    forall m | 0 <= m < |u|
      ensures s[i + j..i + j + |u|][m] == u[m]
    {
      assert s[i + j + m] == t[j + m];
    }
    assert OccursAt(s, i + j, u);
  }

  /** The occurrence of `a` at the front of `a + b` survives any extension on the right. */
  lemma StartsWithConcat(a: string, b: string)
    ensures StartsWith(a + b, a)
  {
    assert (a + b)[..|a|] == a;
  }

  /**
   * Right after `base`, the text `base + (h + rest)` holds `h`, and not any
   * header `other` that differs from `h` at a shared position `k`.
   */
  lemma HeaderAfterBase(base: string, h: string, rest: string, other: string, k: nat)
    requires k < |h| && k < |other| && h[k] != other[k]
    ensures StartsWith(base + (h + rest), base)
    ensures OccursAt(base + (h + rest), |base|, h)
    ensures !OccursAt(base + (h + rest), |base|, other)
  {
    var text := base + (h + rest);
    StartsWithConcat(base, h + rest);
    assert text[|base|..|base| + |h|] == h by {
      forall m | 0 <= m < |h|
        ensures text[|base|..|base| + |h|][m] == h[m]
      {
        assert text[|base| + m] == (h + rest)[m];
      }
    }
    assert text[|base| + k] == h[k];
  }

  lemma EmbedsExtended(s: string, t: string, piece: string)
    requires Embeds(s, t)
    ensures Embeds(s + piece, t)
  {
    var k :| OccursAt(s, k, t);
    assert (s + piece)[k..k + |t|] == s[k..k + |t|];
    assert OccursAt(s + piece, k, t);
  }

  lemma EmbedsPrepended(front: string, s: string, t: string)
    requires Embeds(s, t)
    ensures Embeds(front + s, t)
  {
    EmbedsConcat(front, s);
    EmbedsTransitive(front + s, s, t);
  }

  /** A text with four interpolated values contains each of them. */
  lemma EmbedsFour(l0: string, a: string, l1: string, b: string, l2: string, c: string,
                   l3: string, d: string, l4: string)
    ensures var s := l0 + a + l1 + b + l2 + c + l3 + d + l4;
      Embeds(s, a) && Embeds(s, b) && Embeds(s, c) && Embeds(s, d)
  {
    var s1 := l0 + a;
    EmbedsConcat(l0, a);
    var s2 := s1 + l1;
    EmbedsExtended(s1, a, l1);
    var s3 := s2 + b;
    EmbedsExtended(s2, a, b);
    EmbedsConcat(s2, b);
    var s4 := s3 + l2;
    EmbedsExtended(s3, a, l2);
    EmbedsExtended(s3, b, l2);
    var s5 := s4 + c;
    EmbedsExtended(s4, a, c);
    EmbedsExtended(s4, b, c);
    EmbedsConcat(s4, c);
    var s6 := s5 + l3;
    EmbedsExtended(s5, a, l3);
    EmbedsExtended(s5, b, l3);
    EmbedsExtended(s5, c, l3);
    var s7 := s6 + d;
    EmbedsExtended(s6, a, d);
    EmbedsExtended(s6, b, d);
    EmbedsExtended(s6, c, d);
    EmbedsConcat(s6, d);
    EmbedsExtended(s7, a, l4);
    EmbedsExtended(s7, b, l4);
    EmbedsExtended(s7, c, l4);
    EmbedsExtended(s7, d, l4);
  }
}

=== FILE: constants.dfy ===
/**
 * The app's fixed option lists and the two export resolutions
 * (src/lib/constants.ts).
 */
module Constants {

  const ColorSchemes: seq<string> := [
    "Bright & Punchy",
    "Dark & Moody",
    "Pastel & Soft",
    "Monochrome",
    "Neon Glow",
    "Earthy Tones",
    "Oceanic Blues",
    "Sunset Gradients"
  ]

  const FontPairings: seq<string> := [
    "Modern Sans Serif Duo",
    "Classic Serif & Sans",
    "Playful & Bold Display",
    "Minimalist & Clean",
    "Tech & Futuristic",
    "Elegant Script & Sans",
    "Handwritten & Friendly"
  ]

  const Styles: seq<string> := [
    "Minimalist Clean",
    "Bold & Impactful",
    "Illustrated / Cartoonish",
    "Photorealistic",
    "Abstract & Artsy",
    "Retro / Vintage",
    "3D Render",
    "Gradient Focused"
  ]

  /** An export size in pixels with its button label (`label` in the source, a reserved word here). */
  datatype Resolution = Resolution(width: nat, height: nat, caption: string)

  const FHD: Resolution := Resolution(1920, 1080, "1920x1080 (FHD)")
  const HD: Resolution := Resolution(1280, 720, "1280x720 (HD)")

  /**
   * An option list usable by the form: it has a first entry (the default),
   * no entry is empty (so the default passes a non-empty check), and no two
   * entries coincide (they are used as list keys).
   */
  predicate UsableOptions(options: seq<string>)
  {
    && |options| > 0
    && (forall i :: 0 <= i < |options| ==> options[i] != "")
    && (forall i, j :: 0 <= i < j < |options| ==> options[i] != options[j])
  }

  lemma OptionListsUsable()
    ensures UsableOptions(ColorSchemes)
    ensures UsableOptions(FontPairings)
    ensures UsableOptions(Styles)
  {
  }

  /** Both export sizes have the 16:9 shape that the export code assumes. */
  lemma ResolutionsAreSixteenByNine()
    ensures HD.width == 1280 && HD.height == 720
    ensures FHD.width == 1920 && FHD.height == 1080
    ensures HD.width * 9 == HD.height * 16
    ensures FHD.width * 9 == FHD.height * 16
    ensures HD.width > 0 && HD.height > 0 && FHD.width > 0 && FHD.height > 0
  {
  }
}

=== FILE: download_button.dfy ===
/**
 * Exporting the displayed thumbnail at a fixed resolution
 * (src/components/core/download-button.tsx): the "contain" fit of the
 * decoded image into the target canvas, the canvas the handler draws on,
 * and the deterministic download file name.
 */
module DownloadButton {
  import opened Common
  import Constants

  // ---------------------------------------------------------------------
  // Contain fit
  // ---------------------------------------------------------------------

  /** Natural size of the decoded image (`img.width`, `img.height`). */
  datatype ImageSize = ImageSize(width: real, height: real)

  /** Destination rectangle handed to `drawImage`: offsets and scaled size. */
  datatype Placement = Placement(dx: real, dy: real, width: real, height: real)

  /**
   * Letterbox/pillarbox fit: one uniform scale chosen by comparing the
   * image's aspect ratio with the canvas's, then centring offsets.
   */
  function ContainFit(img: ImageSize, canvasWidth: real, canvasHeight: real): (p: Placement)
    requires img.width > 0.0 && img.height > 0.0
    requires canvasWidth > 0.0 && canvasHeight > 0.0
    ensures p.width > 0.0 && p.height > 0.0
    // centred and inside the canvas
    ensures 0.0 <= p.dx && 0.0 <= p.dy
    ensures 2.0 * p.dx + p.width == canvasWidth
    ensures 2.0 * p.dy + p.height == canvasHeight
    // same shape as the source
    ensures p.width * img.height == p.height * img.width
    // a wider image spans the canvas width, any other spans its height
    ensures img.width / img.height > canvasWidth / canvasHeight ==> p.width == canvasWidth
    ensures img.width / img.height <= canvasWidth / canvasHeight ==> p.height == canvasHeight
  {
    var imageAspectRatio := img.width / img.height;
    var canvasAspectRatio := canvasWidth / canvasHeight;
    if imageAspectRatio > canvasAspectRatio then
      WiderFit(img, canvasWidth, canvasHeight);
      var scaledHeight := canvasWidth / imageAspectRatio;
      Placement(0.0, (canvasHeight - scaledHeight) / 2.0, canvasWidth, scaledHeight)
    else
      NarrowerFit(img, canvasWidth, canvasHeight);
      var scaledWidth := canvasHeight * imageAspectRatio;
      Placement((canvasWidth - scaledWidth) / 2.0, 0.0, scaledWidth, canvasHeight)
  }

  lemma WiderFit(img: ImageSize, canvasWidth: real, canvasHeight: real)
    requires img.width > 0.0 && img.height > 0.0
    requires canvasWidth > 0.0 && canvasHeight > 0.0
    requires img.width / img.height > canvasWidth / canvasHeight
    ensures 0.0 < canvasWidth / (img.width / img.height) <= canvasHeight
    ensures canvasWidth * img.height == canvasWidth / (img.width / img.height) * img.width
  {
    var a := img.width / img.height;
    var h := canvasWidth / a;
    assert a * img.height == img.width;
    assert h * a == canvasWidth;
    assert canvasWidth < a * canvasHeight by {
      assert canvasWidth / canvasHeight * canvasHeight == canvasWidth;
    }
    assert h * a < canvasHeight * a;
    assert canvasWidth * img.height == h * a * img.height;
  }

  lemma NarrowerFit(img: ImageSize, canvasWidth: real, canvasHeight: real)
    requires img.width > 0.0 && img.height > 0.0
    requires canvasWidth > 0.0 && canvasHeight > 0.0
    requires img.width / img.height <= canvasWidth / canvasHeight
    ensures 0.0 < canvasHeight * (img.width / img.height) <= canvasWidth
    ensures canvasHeight * (img.width / img.height) * img.height == canvasHeight * img.width
  {
    var a := img.width / img.height;
    assert a * img.height == img.width;
    assert canvasWidth / canvasHeight * canvasHeight == canvasWidth;
    assert canvasHeight * a <= canvasHeight * (canvasWidth / canvasHeight);
  }

  function Min(x: real, y: real): real
  {
    if x <= y then x else y
  }

  /**
   * The fit is the textbook contain scale: the source scaled by
   * min(canvasWidth / width, canvasHeight / height).
   */
  lemma ContainFitIsMinScale(img: ImageSize, canvasWidth: real, canvasHeight: real)
    requires img.width > 0.0 && img.height > 0.0
    requires canvasWidth > 0.0 && canvasHeight > 0.0
    ensures var s := Min(canvasWidth / img.width, canvasHeight / img.height);
      && ContainFit(img, canvasWidth, canvasHeight).width == s * img.width
      && ContainFit(img, canvasWidth, canvasHeight).height == s * img.height
  {
    var p := ContainFit(img, canvasWidth, canvasHeight);
    var sw, sh := canvasWidth / img.width, canvasHeight / img.height;
    if img.width / img.height > canvasWidth / canvasHeight {
      WiderScale(img, canvasWidth, canvasHeight);
      assert Min(sw, sh) == sw;
      assert p.width == sw * img.width;
      ScaledSide(p.height, sw, img.height, img.width, canvasWidth, p.width);
    } else {
      NarrowerScale(img, canvasWidth, canvasHeight);
      assert Min(sw, sh) == sh;
      assert p.height == sh * img.height;
      ScaledSide(p.width, sh, img.width, img.height, canvasHeight, p.height);
    }
  }

  /** In the wider case the width scale is the smaller one. */
  lemma WiderScale(img: ImageSize, canvasWidth: real, canvasHeight: real)
    requires img.width > 0.0 && img.height > 0.0
    requires canvasWidth > 0.0 && canvasHeight > 0.0
    requires img.width / img.height > canvasWidth / canvasHeight
    ensures canvasWidth / img.width < canvasHeight / img.height
    ensures canvasWidth / img.width * img.width == canvasWidth
  {
    assert img.width * canvasHeight > canvasWidth * img.height by {
      assert img.width / img.height * img.height == img.width;
      assert canvasWidth / canvasHeight * canvasHeight == canvasWidth;
      MulMonotonic(canvasWidth / canvasHeight, img.width / img.height, img.height * canvasHeight);
    }
    DivCompare(canvasWidth, img.width, canvasHeight, img.height);
  }

  /** Otherwise the height scale is the smaller one (or both are equal). */
  lemma NarrowerScale(img: ImageSize, canvasWidth: real, canvasHeight: real)
    requires img.width > 0.0 && img.height > 0.0
    requires canvasWidth > 0.0 && canvasHeight > 0.0
    requires img.width / img.height <= canvasWidth / canvasHeight
    ensures canvasHeight / img.height <= canvasWidth / img.width
    ensures canvasHeight / img.height * img.height == canvasHeight
  {
    assert img.width * canvasHeight <= canvasWidth * img.height by {
      assert img.width / img.height * img.height == img.width;
      assert canvasWidth / canvasHeight * canvasHeight == canvasWidth;
      MulMonotonicWeak(img.width / img.height, canvasWidth / canvasHeight, img.height * canvasHeight);
    }
    DivCompareWeak(canvasHeight, img.height, canvasWidth, img.width);
  }

  /**
   * If the spanned side equals s * its source side, the other side, tied by
   * the aspect equation, equals s * its source side too.
   */
  lemma ScaledSide(other: real, s: real, otherSource: real, spannedSource: real, span: real, spanned: real)
    requires otherSource > 0.0 && spannedSource > 0.0
    requires spanned == span && s * spannedSource == span
    requires spanned * otherSource == other * spannedSource
    ensures other == s * otherSource
  {
    assert other * spannedSource == (s * otherSource) * spannedSource;
    MulCancel(other, s * otherSource, spannedSource);
  }

  lemma MulMonotonic(x: real, y: real, k: real)
    requires x < y && k > 0.0
    ensures x * k < y * k
  {
  }

  lemma MulMonotonicWeak(x: real, y: real, k: real)
    requires x <= y && k > 0.0
    ensures x * k <= y * k
  {
  }

  /** cw / iw < ch / ih follows from cw * ih < iw * ch. */
  lemma DivCompare(cw: real, iw: real, ch: real, ih: real)
    requires iw > 0.0 && ih > 0.0
    requires iw * ch > cw * ih
    ensures cw / iw < ch / ih
  {
    assert cw / iw * (iw * ih) == cw * ih;
    assert ch / ih * (iw * ih) == ch * iw;
  }

  lemma DivCompareWeak(ch: real, ih: real, cw: real, iw: real)
    requires iw > 0.0 && ih > 0.0
    requires iw * ch <= cw * ih
    ensures ch / ih <= cw / iw
  {
    assert cw / iw * (iw * ih) == cw * ih;
    assert ch / ih * (iw * ih) == ch * iw;
  }

  /**
   * No larger copy of the image with the same shape fits: any uniform scale
   * that keeps the image inside the canvas yields a rectangle no bigger
   * than the fit.
   */
  lemma ContainFitIsLargest(img: ImageSize, canvasWidth: real, canvasHeight: real, t: real)
    requires img.width > 0.0 && img.height > 0.0
    requires canvasWidth > 0.0 && canvasHeight > 0.0
    requires t > 0.0 && t * img.width <= canvasWidth && t * img.height <= canvasHeight
    ensures t * img.width <= ContainFit(img, canvasWidth, canvasHeight).width
    ensures t * img.height <= ContainFit(img, canvasWidth, canvasHeight).height
  {
    ContainFitIsMinScale(img, canvasWidth, canvasHeight);
    var sw, sh := canvasWidth / img.width, canvasHeight / img.height;
    assert t <= sw by {
      assert sw * img.width == canvasWidth;
      if t > sw {
        MulMonotonic(sw, t, img.width);
      }
    }
    assert t <= sh by {
      assert sh * img.height == canvasHeight;
      if t > sh {
        MulMonotonic(sh, t, img.height);
      }
    }
    var s := Min(sw, sh);
    MulMonotonicWeak(t, s, img.width);
    MulMonotonicWeak(t, s, img.height);
  }

  /** An image with the canvas's own shape fills it exactly, with no bars. */
  lemma SameShapeFillsCanvas(img: ImageSize, canvasWidth: real, canvasHeight: real)
    requires img.width > 0.0 && img.height > 0.0
    requires canvasWidth > 0.0 && canvasHeight > 0.0
    requires img.width * canvasHeight == img.height * canvasWidth
    ensures ContainFit(img, canvasWidth, canvasHeight) == Placement(0.0, 0.0, canvasWidth, canvasHeight)
  {
    var p := ContainFit(img, canvasWidth, canvasHeight);
    assert !(img.width / img.height > canvasWidth / canvasHeight) by {
      DivCompareWeak(canvasWidth, canvasHeight, img.width, img.height);
    }
    assert p.height == canvasHeight;
    assert p.width * img.height == canvasWidth * img.height;
    MulCancel(p.width, canvasWidth, img.height);
  }

  lemma MulCancel(x: real, y: real, k: real)
    requires k > 0.0 && x * k == y * k
    ensures x == y
  {
    if x < y {
      MulMonotonic(x, y, k);
    } else if y < x {
      MulMonotonic(y, x, k);
    }
  }

  // ---------------------------------------------------------------------
  // File name
  // ---------------------------------------------------------------------

  predicate IsAsciiLetterOrDigit(c: char)
  {
    'a' <= c <= 'z' || 'A' <= c <= 'Z' || '0' <= c <= '9'
  }

  /** Characters a sanitised prefix may hold: [a-z0-9_]. */
  predicate IsSafeChar(c: char)
  {
    'a' <= c <= 'z' || '0' <= c <= '9' || c == '_'
  }

  function LowerAscii(c: char): char
  {
    if 'A' <= c <= 'Z' then (c as int + 32) as char else c
  }

  /**
   * One character of `replace(/[^a-z0-9]/gi, '_').toLowerCase()`: the
   * case-insensitive class keeps ASCII letters and digits, everything else
   * becomes '_', and the result is lower-cased (it holds only ASCII by then).
   */
  function SanitizeChar(c: char): char
  {
    if IsAsciiLetterOrDigit(c) then LowerAscii(c) else '_'
  }

  function Sanitize(prefix: string): (safe: string)
    ensures |safe| == |prefix|
    ensures forall i :: 0 <= i < |safe| ==> IsSafeChar(safe[i])
    ensures forall i :: 0 <= i < |prefix| ==> (safe[i] == '_' <==> !IsAsciiLetterOrDigit(prefix[i]))
    ensures forall i :: 0 <= i < |prefix| && 'A' <= prefix[i] <= 'Z' ==> safe[i] as int == prefix[i] as int + 32
    ensures forall i :: 0 <= i < |prefix| && IsSafeChar(prefix[i]) ==> safe[i] == prefix[i]
  {
    seq(|prefix|, i requires 0 <= i < |prefix| => SanitizeChar(prefix[i]))
  }

  /** Sanitising twice changes nothing more. */
  lemma SanitizeIdempotent(prefix: string)
    ensures Sanitize(Sanitize(prefix)) == Sanitize(prefix)
  {
  }

  predicate IsDigit(c: char)
  {
    '0' <= c <= '9'
  }

  predicate AllDigits(s: string)
  {
    forall i :: 0 <= i < |s| ==> IsDigit(s[i])
  }

  function DigitChar(d: nat): (c: char)
    requires d < 10
    ensures IsDigit(c) && c as int - '0' as int == d
  {
    ('0' as int + d) as char
  }

  /** The decimal rendering JavaScript gives a non-negative integer in a template string. */
  function Decimal(n: nat): (s: string)
    ensures |s| > 0 && AllDigits(s)
    ensures s[0] == '0' ==> n == 0
    decreases n
  {
    if n < 10 then [DigitChar(n)] else Decimal(n / 10) + [DigitChar(n % 10)]
  }

  function DigitsValue(s: string): nat
    requires AllDigits(s)
  {
    if s == [] then 0 else DigitsValue(s[..|s| - 1]) * 10 + (s[|s| - 1] as int - '0' as int)
  }

  lemma {:induction false} DecimalRoundTrip(n: nat)
    ensures DigitsValue(Decimal(n)) == n
    decreases n
  {
    if n >= 10 {
      var s := Decimal(n);
      assert s[..|s| - 1] == Decimal(n / 10);
      DecimalRoundTrip(n / 10);
    }
  }

  const FileNameLead: string := "thumbly-ai-"
  const FileNameExtension: string := ".png"

  /** `thumbly-ai-<safe>-<width>x<height>.png`. */
  function FileName(prefix: string, resolution: Constants.Resolution): (name: string)
    ensures StartsWith(name, FileNameLead)
    ensures |name| >= |FileNameLead| + |FileNameExtension|
    ensures name[|name| - |FileNameExtension|..] == FileNameExtension
  {
    FileNameLead + Sanitize(prefix) + "-" + Decimal(resolution.width) + "x" + Decimal(resolution.height) + FileNameExtension
  }

  /** Index of the first `c` in `s`, or |s| when there is none. */
  function IndexOf(s: string, c: char): (k: nat)
    ensures k <= |s|
    ensures k < |s| ==> s[k] == c
    ensures forall i :: 0 <= i < k ==> s[i] != c
  {
    if s == [] then 0 else if s[0] == c then 0 else 1 + IndexOf(s[1..], c)
  }

  datatype FileNameParts = FileNameParts(safePrefix: string, width: nat, height: nat)

  /** Reads a download file name back into its sanitised prefix and resolution. */
  function ParseFileName(name: string): Option<FileNameParts>
  {
    if !(StartsWith(name, FileNameLead) && |name| >= |FileNameLead| + |FileNameExtension|
         && name[|name| - |FileNameExtension|..] == FileNameExtension) then None
    else
      var body := name[|FileNameLead|..|name| - |FileNameExtension|];
      var i := IndexOf(body, '-');
      if i == |body| then None
      else
        var rest := body[i + 1..];
        var j := IndexOf(rest, 'x');
        if j == |rest| then None
        else
          var w, h := rest[..j], rest[j + 1..];
          if w == [] || h == [] || !AllDigits(w) || !AllDigits(h) then None
          else Some(FileNameParts(body[..i], DigitsValue(w), DigitsValue(h)))
  }

  lemma IndexOfIs(s: string, c: char, k: nat)
    requires k < |s| && s[k] == c
    requires forall i :: 0 <= i < k ==> s[i] != c
    ensures IndexOf(s, c) == k
  {
  }

  /**
   * The file name determines the sanitised prefix and both dimensions: two
   * exports with different prefixes or resolutions never share a name.
   */
  lemma FileNameRoundTrip(prefix: string, resolution: Constants.Resolution)
    ensures ParseFileName(FileName(prefix, resolution))
         == Some(FileNameParts(Sanitize(prefix), resolution.width, resolution.height))
  {
    var name := FileName(prefix, resolution);
    var safe, w, h := Sanitize(prefix), Decimal(resolution.width), Decimal(resolution.height);
    var body := name[|FileNameLead|..|name| - |FileNameExtension|];
    assert body == safe + "-" + w + "x" + h;
    assert (safe + "-" + w + "x" + h)[|safe|] == '-';
    IndexOfIs(body, '-', |safe|);
    var rest := body[|safe| + 1..];
    assert rest == w + "x" + h;
    IndexOfIs(rest, 'x', |w|);
    assert rest[..|w|] == w && rest[|w| + 1..] == h;
    assert body[..|safe|] == safe;
    DecimalRoundTrip(resolution.width);
    DecimalRoundTrip(resolution.height);
  }

  lemma DecimalOfResolutions()
    ensures Decimal(1280) == "1280" && Decimal(720) == "720"
    ensures Decimal(1920) == "1920" && Decimal(1080) == "1080"
  {
    assert Decimal(1) == "1";
    assert Decimal(12) == "12";
    assert Decimal(128) == "128";
    assert Decimal(7) == "7";
    assert Decimal(72) == "72";
    assert Decimal(19) == "19";
    assert Decimal(192) == "192";
    assert Decimal(10) == "10";
    assert Decimal(108) == "108";
  }

  /** The two file names the display can produce. */
  lemma FileNamesOfTheTwoResolutions(prefix: string)
    ensures FileName(prefix, Constants.HD) == "thumbly-ai-" + Sanitize(prefix) + "-1280x720.png"
    ensures FileName(prefix, Constants.FHD) == "thumbly-ai-" + Sanitize(prefix) + "-1920x1080.png"
  {
    DecimalOfResolutions();
  }

  // ---------------------------------------------------------------------
  // The download handler
  // ---------------------------------------------------------------------

  datatype Color = Black

  /** What the handler asks the 2D context to draw. */
  datatype DrawOp =
    | FillRect(color: Color, x: real, y: real, w: real, h: real)
    | DrawImage(sx: real, sy: real, sw: real, sh: real, target: Placement)

  /** An HTML canvas element: its pixel size and the drawing done on it. */
  class Canvas {
    var width: nat
    var height: nat
    var ops: seq<DrawOp>

    /** A fresh canvas element has the HTML default size of 300 x 150. */
    constructor ()
      ensures width == 300 && height == 150 && ops == []
    {
      width, height, ops := 300, 150, [];
    }

    /** Assigning the size resets the bitmap. */
    method SetSize(w: nat, h: nat)
      modifies this
      ensures width == w && height == h && ops == []
    {
      width, height, ops := w, h, [];
    }

    method FillRect(color: Color, x: real, y: real, w: real, h: real)
      modifies this
      ensures width == old(width) && height == old(height)
      ensures ops == old(ops) + [DrawOp.FillRect(color, x, y, w, h)]
    {
      ops := ops + [DrawOp.FillRect(color, x, y, w, h)];
    }

    method DrawImage(sx: real, sy: real, sw: real, sh: real, target: Placement)
      modifies this
      ensures width == old(width) && height == old(height)
      ensures ops == old(ops) + [DrawOp.DrawImage(sx, sy, sw, sh, target)]
    {
      ops := ops + [DrawOp.DrawImage(sx, sy, sw, sh, target)];
    }
  }

  /** How a click on a download button ends. */
  datatype Download =
    | NoThumbnail                  // empty data URI: nothing is drawn
    | LoadFailed                   // the image did not decode
    | NoContext                    // the canvas gave no 2D context
    | EncodeFailed                 // converting the canvas to a PNG data URL threw
    | Saved(width: nat, height: nat, ops: seq<DrawOp>, fileName: string)

  /**
   * The click handler. `loaded` is the decoded image (None when it fails to
   * load), `hasContext` whether `getContext("2d")` succeeds and `encodes`
   * whether `toDataURL` succeeds; these are the browser's answers.
   */
  method HandleDownload(thumbnailDataUri: string, loaded: Option<ImageSize>, hasContext: bool, encodes: bool,
                        resolution: Constants.Resolution, filenamePrefix: string) returns (d: Download)
    requires resolution.width > 0 && resolution.height > 0
    requires loaded.Some? ==> loaded.value.width > 0.0 && loaded.value.height > 0.0
    ensures thumbnailDataUri == "" ==> d == NoThumbnail
    ensures thumbnailDataUri != "" && loaded.None? ==> d == LoadFailed
    ensures thumbnailDataUri != "" && loaded.Some? && !hasContext ==> d == NoContext
    ensures thumbnailDataUri != "" && loaded.Some? && hasContext && !encodes ==> d == EncodeFailed
    ensures d.Saved? <==> thumbnailDataUri != "" && loaded.Some? && hasContext && encodes
    ensures d.Saved? ==> d.width == resolution.width && d.height == resolution.height
    ensures d.Saved? ==> d.fileName == FileName(filenamePrefix, resolution)
    ensures d.Saved? ==>
      var img := loaded.value;
      d.ops == [DrawOp.FillRect(Black, 0.0, 0.0, d.width as real, d.height as real),
                DrawOp.DrawImage(0.0, 0.0, img.width, img.height,
                                 ContainFit(img, d.width as real, d.height as real))]
  {
    if thumbnailDataUri == "" {
      return NoThumbnail;
    }
    if loaded.None? {
      return LoadFailed;
    }
    var img := loaded.value;
    var canvas := new Canvas();
    canvas.SetSize(resolution.width, resolution.height);
    if !hasContext {
      return NoContext;
    }
    canvas.FillRect(Black, 0.0, 0.0, canvas.width as real, canvas.height as real);
    var fit := ContainFit(img, canvas.width as real, canvas.height as real);
    canvas.DrawImage(0.0, 0.0, img.width, img.height, fit);
    if !encodes {
      return EncodeFailed;
    }
    var name := FileName(filenamePrefix, resolution);
    d := Saved(canvas.width, canvas.height, canvas.ops, name);
  }
}

=== FILE: generate_thumbnail.dfy ===
/**
 * The generation flow (src/ai/flows/generate-thumbnail.ts): the prompt
 * handed to the image model, chosen by whether an image was uploaded, and
 * the flow's result as a function of the model's reply.
 *
 * The fixed wording of the prompt is abbreviated: each constant below
 * stands for the literal text between two interpolations, and only the
 * order of fragments and interpolated values follows the source exactly.
 */
module GenerateThumbnail {
  import opened Common

  datatype GenerateInput = GenerateInput(params: Params, uploadedImageDataUri: Option<string>)

  datatype GenerateOutput = GenerateOutput(thumbnailDataUri: string)

  const TopicLead: string := "Generate a modern YouTube thumbnail with bold text about the video topic: \""
  const ColorLead: string := "\". Use colours guided by the color scheme: \""
  const FontLead: string := "\". Apply a font style inspired by \""
  const StyleLead: string := "\". Adhere to the style: \""
  const BaseClose: string := "\". Do not write the scheme, font or style names as text on the image."

  /** `basePromptText`: the common opening of both prompts. */
  function BasePromptText(p: Params): string
  {
    TopicLead + p.videoTopic + ColorLead + p.colorScheme + FontLead + p.fontPairing + StyleLead + p.style + BaseClose
  }

  const UserImageHeader: string := "\n\nINSTRUCTION (User Image Provided): "
  const NoUserImageHeader: string := "\n\nINSTRUCTION (No User Image): "
  const UseImageLead: string := "Use the image above as a key component or background, integrated with the "
  const GenerateAllLead: string := "Generate all visual elements based on the "
  const SuffixClose: string := ". The thumbnail text should be about the video topic."

  function UserImageSuffix(p: Params): string
  {
    UserImageHeader + (UseImageLead + ParameterRecap(p) + SuffixClose)
  }

  function NoUserImageSuffix(p: Params): string
  {
    NoUserImageHeader + (GenerateAllLead + ParameterRecap(p) + SuffixClose)
  }

  /** `imageGenerationPromptConfig`: a two-part list with an upload, a plain string without. */
  function GenerationPrompt(input: GenerateInput): (prompt: Prompt)
    ensures prompt.PlainText? <==> !Truthy(input.uploadedImageDataUri)
    ensures prompt.Parts? ==>
      && |prompt.parts| == 2
      && prompt.parts[0] == Media(input.uploadedImageDataUri.value)
      && prompt.parts[1].Text?
  {
    var base := BasePromptText(input.params);
    if Truthy(input.uploadedImageDataUri) then
      Parts([Media(input.uploadedImageDataUri.value), Text(base + UserImageSuffix(input.params))])
    else
      PlainText(base + NoUserImageSuffix(input.params))
  }

  /** The instruction text of a prompt: the string itself, or the text in its last part. */
  function InstructionText(prompt: Prompt): string
  {
    match prompt
    case PlainText(text) => text
    case Parts(parts) => if parts != [] && parts[|parts| - 1].Text? then parts[|parts| - 1].text else ""
  }

  /**
   * Both branches open with the base text, and right after it comes the
   * "User Image Provided" header exactly when an image was uploaded, the
   * "No User Image" header exactly when none was.
   */
  lemma GenerationTextShape(input: GenerateInput)
    ensures var text := InstructionText(GenerationPrompt(input));
      var base := BasePromptText(input.params);
      && StartsWith(text, base)
      && (OccursAt(text, |base|, UserImageHeader) <==> Truthy(input.uploadedImageDataUri))
      && (OccursAt(text, |base|, NoUserImageHeader) <==> !Truthy(input.uploadedImageDataUri))
  {
    var p := input.params;
    var base := BasePromptText(p);
    assert UserImageHeader[15] == 'U' && NoUserImageHeader[15] == 'N';
    if Truthy(input.uploadedImageDataUri) {
      HeaderAfterBase(base, UserImageHeader, UseImageLead + ParameterRecap(p) + SuffixClose, NoUserImageHeader, 15);
    } else {
      HeaderAfterBase(base, NoUserImageHeader, GenerateAllLead + ParameterRecap(p) + SuffixClose, UserImageHeader, 15);
    }
  }

  /** The base text carries the topic and the three style choices. */
  lemma BasePromptEmbedsParams(p: Params)
    ensures Embeds(BasePromptText(p), p.videoTopic)
    ensures Embeds(BasePromptText(p), p.colorScheme)
    ensures Embeds(BasePromptText(p), p.fontPairing)
    ensures Embeds(BasePromptText(p), p.style)
  {
    EmbedsFour(TopicLead, p.videoTopic, ColorLead, p.colorScheme, FontLead, p.fontPairing, StyleLead, p.style, BaseClose);
  }

  /** An empty upload string is treated exactly like no upload. */
  lemma EmptyUploadIsNoUpload(p: Params)
    ensures GenerationPrompt(GenerateInput(p, Some(""))) == GenerationPrompt(GenerateInput(p, None))
    ensures GenerationPrompt(GenerateInput(p, None)).PlainText?
  {
  }

  /**
   * `generateThumbnailFlow`: the model is asked once, with the prompt above;
   * its image URL becomes `thumbnailDataUri`, and a throw (including a reply
   * without media) propagates.
   */
  function GenerateThumbnailFlow(input: GenerateInput, model: Prompt -> ModelReply): (r: FlowResult<GenerateOutput>)
    ensures r.Returned? <==> model(GenerationPrompt(input)).Generated?
    ensures r.Returned? ==> r.value.thumbnailDataUri == model(GenerationPrompt(input)).url
    ensures r.Threw? ==> r.thrown == model(GenerationPrompt(input)).thrown
  {
    match model(GenerationPrompt(input))
    case Generated(url) => Returned(GenerateOutput(url))
    case Raised(thrown) => Threw(thrown)
  }
}

=== FILE: generator_client.dfy ===
/**
 * The page's controller (src/components/core/thumbnail-generator-client.tsx):
 * the form schema, the payloads sent to the two actions, and the two state
 * slots — the current thumbnail and the error — that the handlers overwrite.
 * Each handler's completion is one atomic step; the transitions' pending
 * flags are inputs of the display, not state here.
 */
module GeneratorClient {
  import opened Common
  import Constants
  import G = GenerateThumbnail
  import R = RegenerateThumbnail
  import Actions
  import ThumbnailDisplay

  /** The form's values; the upload field may hold "" after it is cleared. */
  datatype FormValues = FormValues(params: Params, uploadedImageDataUri: Option<string>)

  /**
   * `formSchema`: topic of 3 to 100 characters, each select non-empty, upload
   * URL-shaped, absent or "". What it accepts, once normalised, the server's
   * generation schema accepts too.
   */
  function FormAccepts(v: FormValues, isUrl: string -> bool): (accepted: bool)
    ensures accepted ==> Actions.GenerateIssues(GeneratePayload(v), isUrl) == []
    ensures |v.params.videoTopic| < 3 || |v.params.videoTopic| > 100 ==> !accepted
    ensures v.params.colorScheme == "" || v.params.fontPairing == "" || v.params.style == "" ==> !accepted
    ensures (v.uploadedImageDataUri.Some? && v.uploadedImageDataUri.value != ""
             && !isUrl(v.uploadedImageDataUri.value)) ==> !accepted
  {
    && 3 <= |v.params.videoTopic| <= 100
    && |v.params.colorScheme| >= 1
    && |v.params.fontPairing| >= 1
    && |v.params.style| >= 1
    && (v.uploadedImageDataUri.None? || v.uploadedImageDataUri.value == "" || isUrl(v.uploadedImageDataUri.value))
  }

  /** `uploadedImageDataUri || undefined`. */
  function NormalizeUpload(upload: Option<string>): (r: Option<string>)
    ensures r.None? <==> !Truthy(upload)
    ensures r.Some? ==> r == upload && r.value != ""
  {
    if Truthy(upload) then upload else None
  }

  /**
   * `{...data, uploadedImageDataUri: data.uploadedImageDataUri || undefined}`:
   * only an empty upload changes, and the model sees the same prompt as
   * with the form's own values.
   */
  function GeneratePayload(v: FormValues): (payload: G.GenerateInput)
    ensures payload.params == v.params
    ensures payload.uploadedImageDataUri != v.uploadedImageDataUri ==> v.uploadedImageDataUri == Some("")
    ensures payload.uploadedImageDataUri != Some("")
    ensures G.GenerationPrompt(payload) == G.GenerationPrompt(G.GenerateInput(v.params, v.uploadedImageDataUri))
  {
    G.GenerateInput(v.params, NormalizeUpload(v.uploadedImageDataUri))
  }

  /** The regeneration payload: the current form values, the thumbnail on screen, the normalised upload. */
  function RegeneratePayload(v: FormValues, previousThumbnail: string): (payload: R.RegenerateInput)
    ensures payload.params == v.params && payload.previousThumbnail == previousThumbnail
    ensures payload.uploadedImageDataUri != v.uploadedImageDataUri ==> v.uploadedImageDataUri == Some("")
    ensures payload.uploadedImageDataUri != Some("")
    ensures R.RegenerationParts(payload)
         == R.RegenerationParts(R.RegenerateInput(v.params, previousThumbnail, v.uploadedImageDataUri))
  {
    R.RegenerateInput(v.params, previousThumbnail, NormalizeUpload(v.uploadedImageDataUri))
  }

  /**
   * Whatever the form accepts, the server accepts too once the empty upload
   * is normalised away; a regeneration also needs a URL-shaped thumbnail.
   */
  lemma FormAcceptedPassesServerValidation(v: FormValues, isUrl: string -> bool, previousThumbnail: string)
    requires FormAccepts(v, isUrl)
    ensures Actions.GenerateIssues(GeneratePayload(v), isUrl) == []
    ensures Actions.RegenerateIssues(RegeneratePayload(v, previousThumbnail), isUrl) == []
        <==> isUrl(previousThumbnail)
  {
    var rIssues := Actions.RegenerateIssues(RegeneratePayload(v, previousThumbnail), isUrl);
    if rIssues != [] {
      assert rIssues[0] in rIssues;
    }
  }

  /**
   * With any non-empty selects and an upload that is absent, empty or
   * URL-shaped, the form decides on the topic's length alone: 2 and 101
   * characters are refused, 3 and 100 accepted.
   */
  lemma NonEmptySelectionsDecideOnTopicAlone(topic: string, c: string, f: string, s: string,
                                             upload: Option<string>, isUrl: string -> bool)
    requires c != "" && f != "" && s != ""
    requires upload == None || upload == Some("") || (upload.Some? && isUrl(upload.value))
    ensures FormAccepts(FormValues(Params(topic, c, f, s), upload), isUrl) <==> 3 <= |topic| <= 100
  {
  }

  /** Every option the three selects offer, the default included, is accepted. */
  lemma OfferedSelectionsDecideOnTopicAlone(topic: string, c: string, f: string, s: string,
                                            upload: Option<string>, isUrl: string -> bool)
    requires c in Constants.ColorSchemes && f in Constants.FontPairings && s in Constants.Styles
    requires upload == None || upload == Some("") || (upload.Some? && isUrl(upload.value))
    ensures FormAccepts(FormValues(Params(topic, c, f, s), upload), isUrl) <==> 3 <= |topic| <= 100
  {
    Constants.OptionListsUsable();
    NonEmptySelectionsDecideOnTopicAlone(topic, c, f, s, upload, isUrl);
  }

  class ThumbnailGenerator {
    /** `generatedThumbnail`. */
    var generatedThumbnail: Option<string>
    /** `error`. */
    var error: Option<string>

    constructor ()
      ensures generatedThumbnail == None && error == None
    {
      generatedThumbnail, error := None, None;
    }

    /**
     * `handleGenerate`: clears the error, sends the normalised payload, then
     * either shows the new thumbnail or records the error and drops the
     * thumbnail.
     */
    method HandleGenerate(data: FormValues, isUrl: string -> bool, model: Prompt -> ModelReply)
      returns (payload: G.GenerateInput)
      modifies this
      ensures payload == GeneratePayload(data)
      ensures match Actions.GenerateThumbnailAction(payload, isUrl, model)
        case Failure(e) => error == Some(e) && generatedThumbnail == None
        case Success(out) => generatedThumbnail == Some(out.thumbnailDataUri) && error == None
    {
      error := None;
      payload := G.GenerateInput(data.params, NormalizeUpload(data.uploadedImageDataUri));
      var result := Actions.GenerateThumbnailAction(payload, isUrl, model);
      match result {
        case Failure(e) =>
          error := Some(e);
          generatedThumbnail := None;
        case Success(out) =>
          generatedThumbnail := Some(out.thumbnailDataUri);
      }
    }

    /**
     * `handleRegenerate`: without a thumbnail nothing is sent and nothing
     * changes; otherwise the current thumbnail is sent back, a success
     * replaces it and a failure records the error but keeps it.
     */
    method HandleRegenerate(current: FormValues, isUrl: string -> bool, model: Prompt -> ModelReply)
      returns (payload: Option<R.RegenerateInput>)
      modifies this
      ensures !Truthy(old(generatedThumbnail)) ==>
        payload == None && generatedThumbnail == old(generatedThumbnail) && error == old(error)
      ensures Truthy(old(generatedThumbnail)) ==>
        && payload == Some(RegeneratePayload(current, old(generatedThumbnail).value))
        && match Actions.RegenerateThumbnailAction(payload.value, isUrl, model)
           case Failure(e) => error == Some(e) && generatedThumbnail == old(generatedThumbnail)
           case Success(out) => generatedThumbnail == Some(out.thumbnail) && error == None
    {
      if !Truthy(generatedThumbnail) {
        return None;
      }
      error := None;
      var request := R.RegenerateInput(current.params, generatedThumbnail.value,
                                       NormalizeUpload(current.uploadedImageDataUri));
      payload := Some(request);
      var result := Actions.RegenerateThumbnailAction(request, isUrl, model);
      match result {
        case Failure(e) =>
          error := Some(e);
        case Success(out) =>
          generatedThumbnail := Some(out.thumbnail);
      }
    }

    function View(videoTopic: string, isGenerating: bool, isRegenerating: bool): ThumbnailDisplay.View
      reads this
    {
      ThumbnailDisplay.Display(ThumbnailDisplay.Props(generatedThumbnail, videoTopic, isGenerating, isRegenerating, error))
    }
  }

  /**
   * After a failed generation the panel shows the failure view, whose
   * "Try Again" button calls the regenerate handler — which, the thumbnail
   * having been dropped, sends nothing and changes nothing.
   */
  method TryAgainAfterFailedGeneration(data: FormValues, current: FormValues, isUrl: string -> bool,
                                       model: Prompt -> ModelReply)
    returns (view: ThumbnailDisplay.View, retry: Option<R.RegenerateInput>, after: ThumbnailDisplay.View)
    requires Actions.GenerateThumbnailAction(GeneratePayload(data), isUrl, model).Failure?
    ensures view.FailureView?
    ensures view.message == Actions.GenerateThumbnailAction(GeneratePayload(data), isUrl, model).error
    ensures retry == None
    ensures after == view
  {
    var client := new ThumbnailGenerator();
    var sent := client.HandleGenerate(data, isUrl, model);
    view := client.View(data.params.videoTopic, false, false);
    retry := client.HandleRegenerate(current, isUrl, model);
    after := client.View(data.params.videoTopic, false, false);
  }

  /**
   * After a failed regeneration the thumbnail stays on screen with the
   * error overlaid, and both downloads are switched off.
   */
  method RegenerationFailureKeepsThumbnail(data: FormValues, current: FormValues, isUrl: string -> bool,
                                           model: Prompt -> ModelReply)
    returns (view: ThumbnailDisplay.View)
    requires Actions.GenerateThumbnailAction(GeneratePayload(data), isUrl, model).Success?
    requires Actions.GenerateThumbnailAction(GeneratePayload(data), isUrl, model).value.thumbnailDataUri != ""
    requires Actions.RegenerateThumbnailAction(
               RegeneratePayload(current, Actions.GenerateThumbnailAction(GeneratePayload(data), isUrl, model).value.thumbnailDataUri),
               isUrl, model).Failure?
    ensures view.ThumbnailView?
    ensures view.src == Actions.GenerateThumbnailAction(GeneratePayload(data), isUrl, model).value.thumbnailDataUri
    ensures view.overlay.ErrorOverlay?
    ensures forall i :: 0 <= i < |view.downloads| ==> ThumbnailDisplay.DownloadDisabled(view.downloads[i])
  {
    var client := new ThumbnailGenerator();
    var sent := client.HandleGenerate(data, isUrl, model);
    var retry := client.HandleRegenerate(current, isUrl, model);
    view := client.View(current.params.videoTopic, false, false);
  }
}

=== FILE: mode_toggle.dfy ===
/**
 * The light/dark switch (src/components/core/mode-toggle.tsx). The stored
 * preference (the "theme" entry of local storage) and the "dark" class of
 * the document element are fields of the object, next to the React state.
 */
module ModeToggle {
  import opened Common

  datatype Theme = Light | Dark

  function Flip(t: Theme): (u: Theme)
    ensures u != t
  {
    if t == Light then Dark else Light
  }

  /** Toggling twice is the identity, on themes and on what the page shows. */
  lemma FlipTwice(t: Theme)
    ensures Flip(Flip(t)) == t
    ensures (Flip(Flip(t)) == Dark) <==> (t == Dark)
  {
  }

  /** The stored choice, else dark when the system prefers it, else light. */
  function InitialTheme(stored: Option<Theme>, systemPrefersDark: bool): (t: Theme)
    ensures stored.Some? ==> t == stored.value
    ensures stored.None? ==> (t == Dark <==> systemPrefersDark)
  {
    if stored.Some? then stored.value
    else if systemPrefersDark then Dark
    else Light
  }

  class ModeToggle {
    /** The component's state. */
    var theme: Theme
    /** The "theme" entry of local storage. */
    var stored: Option<Theme>
    /** Every `localStorage.setItem("theme", …)` in order. */
    var writes: seq<Theme>
    /** Whether the document element carries the "dark" class. */
    var darkClass: bool

    /** The page as it is before the effect runs: state "light", storage and class untouched. */
    constructor (stored: Option<Theme>, darkClass: bool)
      ensures theme == Light
      ensures this.stored == stored && this.darkClass == darkClass && writes == []
    {
      theme := Light;
      this.stored := stored;
      this.darkClass := darkClass;
      writes := [];
    }

    /** Page, storage and state agree. */
    predicate Synced()
      reads this
    {
      darkClass == (theme == Dark) && stored == Some(theme)
    }

    /** The mount effect. */
    method Initialize(systemPrefersDark: bool)
      modifies this
      ensures theme == InitialTheme(old(stored), systemPrefersDark)
      ensures old(stored).Some? ==> stored == old(stored) && writes == old(writes)
      ensures old(stored).None? ==> stored == Some(theme) && writes == old(writes) + [theme]
      ensures darkClass == (theme == Dark)
      ensures Synced()
    {
      var storedTheme := stored;
      var initialTheme: Theme;
      if storedTheme.Some? {
        initialTheme := storedTheme.value;
      } else if systemPrefersDark {
        initialTheme := Dark;
      } else {
        initialTheme := Light;
      }
      theme := initialTheme;
      darkClass := initialTheme == Dark;
      if storedTheme.None? {
        stored := Some(initialTheme);
        writes := writes + [initialTheme];
      }
    }

    /** `toggleTheme`: flip, persist, restyle. */
    method Toggle()
      modifies this
      ensures theme == Flip(old(theme))
      ensures stored == Some(theme) && writes == old(writes) + [theme]
      ensures darkClass == (theme == Dark)
      ensures Synced()
    {
      var newTheme := if theme == Light then Dark else Light;
      stored := Some(newTheme);
      writes := writes + [newTheme];
      darkClass := newTheme == Dark;
      theme := newTheme;
    }
  }

  /** Two clicks bring back the theme, the class and the stored value, and write twice. */
  method ToggleTwice(m: ModeToggle)
    requires m.Synced()
    modifies m
    ensures m.theme == old(m.theme) && m.darkClass == old(m.darkClass) && m.stored == old(m.stored)
    ensures m.writes == old(m.writes) + [Flip(old(m.theme)), old(m.theme)]
  {
    m.Toggle();
    m.Toggle();
    FlipTwice(old(m.theme));
  }
}

=== FILE: regenerate_thumbnail.dfy ===
/**
 * The regeneration flow (src/ai/flows/regenerate-thumbnail.ts): the
 * previous thumbnail, an optional new upload and the instruction text are
 * assembled, in that order, into the parts sent to the image model.
 *
 * As for generation, the fixed wording is abbreviated to short constants;
 * the order of fragments, the interpolated values and the two headers that
 * distinguish the branches follow the source.
 */
module RegenerateThumbnail {
  import opened Common

  datatype RegenerateInput = RegenerateInput(
    params: Params,
    previousThumbnail: string,
    uploadedImageDataUri: Option<string>)

  datatype RegenerateOutput = RegenerateOutput(thumbnail: string)

  const TopicLead: string := "Regenerate the thumbnail to be more modern and professional, with legible text derived from the video topic (\""
  const ColorLead: string := "\"), colours optimised for the selected color scheme: \""
  const FontLead: string := "\". Apply a font style inspired by \""
  const StyleLead: string := "\". Adhere to the style: \""
  const BaseClose: string := "\". Do not write the scheme, font or style names as text on the image."

  /** `baseRegenerationText`: the opening shared by both branches. */
  function BaseRegenerationText(p: Params): string
  {
    TopicLead + p.videoTopic + ColorLead + p.colorScheme + FontLead + p.fontPairing + StyleLead + p.style + BaseClose
  }

  const MultiImageHeader: string := "\n\nINSTRUCTION FOR REGENERATION (MULTI-IMAGE CONTEXT):\n"
  const SingleImageHeader: string := "\n\nINSTRUCTION FOR REGENERATION (SINGLE-IMAGE CONTEXT):\n"
  /** Index at which the two headers first differ ('M' against 'S'). */
  const HeaderFork: nat := 32

  /** The multi-image suffix binds roles by position: FIRST is the old thumbnail, SECOND the upload. */
  const FirstImageRole: string := "The FIRST image provided in the context is the *previous thumbnail*.\n"
  const SecondImageRole: string := "The SECOND image provided in the context is a *newly uploaded image* by the user.\n"
  const PreferUploadLead: string := "Make the SECOND image the primary visual; borrow from the FIRST only where it complements it. Improve the thumbnail based on the "
  const MultiClose: string := ", strongly featuring the new user-uploaded image."
  const OnlyImageRole: string := "The image provided in the context is the *previous thumbnail*.\n"
  const RefineLead: string := "Refine this design to make it significantly better, adhering to the "
  const SingleClose: string := "."

  function MultiImageSuffix(p: Params): string
  {
    MultiImageHeader + (FirstImageRole + SecondImageRole + PreferUploadLead + ParameterRecap(p) + MultiClose)
  }

  function SingleImageSuffix(p: Params): string
  {
    SingleImageHeader + (OnlyImageRole + RefineLead + ParameterRecap(p) + SingleClose)
  }

  /**
   * The parts list the flow sends: the previous thumbnail, then the upload
   * when there is a (non-empty) one, then the instruction text.
   */
  function RegenerationParts(input: RegenerateInput): (parts: seq<Part>)
    ensures |parts| == if Truthy(input.uploadedImageDataUri) then 3 else 2
    ensures parts[0] == Media(input.previousThumbnail)
    ensures Truthy(input.uploadedImageDataUri) ==> parts[1] == Media(input.uploadedImageDataUri.value)
    ensures parts[|parts| - 1].Text?
    ensures forall i :: 0 <= i < |parts| - 1 ==> parts[i].Media?
    ensures StartsWith(parts[|parts| - 1].text, BaseRegenerationText(input.params))
  {
    var p := input.params;
    var base := BaseRegenerationText(p);
    var suffix := if Truthy(input.uploadedImageDataUri) then MultiImageSuffix(p) else SingleImageSuffix(p);
    StartsWithConcat(base, suffix);
    var uploads := if Truthy(input.uploadedImageDataUri) then [Media(input.uploadedImageDataUri.value)] else [];
    [Media(input.previousThumbnail)] + uploads + [Text(base + suffix)]
  }

  /**
   * The flow body as written: `promptParts` starts with the previous
   * thumbnail and grows by `push`; `regenerationInstructionsText` starts as
   * the base text and grows by `+=`.
   */
  method BuildPromptParts(input: RegenerateInput) returns (promptParts: seq<Part>)
    ensures promptParts == RegenerationParts(input)
  {
    var p := input.params;
    promptParts := [Media(input.previousThumbnail)];
    var regenerationInstructionsText := BaseRegenerationText(p);
    if Truthy(input.uploadedImageDataUri) {
      promptParts := promptParts + [Media(input.uploadedImageDataUri.value)];
      regenerationInstructionsText := regenerationInstructionsText + MultiImageSuffix(p);
    } else {
      regenerationInstructionsText := regenerationInstructionsText + SingleImageSuffix(p);
    }
    promptParts := promptParts + [Text(regenerationInstructionsText)];
  }

  /**
   * Right after the base text comes the multi-image header exactly when an
   * upload accompanies the previous thumbnail, and the single-image header
   * exactly when none does; the multi-image text names the FIRST and the
   * SECOND image.
   */
  lemma RegenerationTextShape(input: RegenerateInput)
    ensures var parts := RegenerationParts(input);
      var text := parts[|parts| - 1].text;
      var base := BaseRegenerationText(input.params);
      && (OccursAt(text, |base|, MultiImageHeader) <==> Truthy(input.uploadedImageDataUri))
      && (OccursAt(text, |base|, SingleImageHeader) <==> !Truthy(input.uploadedImageDataUri))
      && (Truthy(input.uploadedImageDataUri) ==> Embeds(text, FirstImageRole) && Embeds(text, SecondImageRole))
  {
    var p := input.params;
    var base := BaseRegenerationText(p);
    assert MultiImageHeader[HeaderFork] == 'M' && SingleImageHeader[HeaderFork] == 'S';
    if Truthy(input.uploadedImageDataUri) {
      var rest := FirstImageRole + SecondImageRole + PreferUploadLead + ParameterRecap(p) + MultiClose;
      HeaderAfterBase(base, MultiImageHeader, rest, SingleImageHeader, HeaderFork);
      var roles := FirstImageRole + SecondImageRole;
      EmbedsConcat(FirstImageRole, SecondImageRole);
      EmbedsExtended(roles, FirstImageRole, PreferUploadLead);
      EmbedsExtended(roles, SecondImageRole, PreferUploadLead);
      EmbedsExtended(roles + PreferUploadLead, FirstImageRole, ParameterRecap(p));
      EmbedsExtended(roles + PreferUploadLead, SecondImageRole, ParameterRecap(p));
      EmbedsExtended(roles + PreferUploadLead + ParameterRecap(p), FirstImageRole, MultiClose);
      EmbedsExtended(roles + PreferUploadLead + ParameterRecap(p), SecondImageRole, MultiClose);
      EmbedsPrepended(MultiImageHeader, rest, FirstImageRole);
      EmbedsPrepended(MultiImageHeader, rest, SecondImageRole);
      EmbedsPrepended(base, MultiImageHeader + rest, FirstImageRole);
      EmbedsPrepended(base, MultiImageHeader + rest, SecondImageRole);
    } else {
      var rest := OnlyImageRole + RefineLead + ParameterRecap(p) + SingleClose;
      HeaderAfterBase(base, SingleImageHeader, rest, MultiImageHeader, HeaderFork);
    }
  }

  /** The base text carries the topic and the three style choices. */
  lemma BaseRegenerationEmbedsParams(p: Params)
    ensures Embeds(BaseRegenerationText(p), p.videoTopic)
    ensures Embeds(BaseRegenerationText(p), p.colorScheme)
    ensures Embeds(BaseRegenerationText(p), p.fontPairing)
    ensures Embeds(BaseRegenerationText(p), p.style)
  {
    EmbedsFour(TopicLead, p.videoTopic, ColorLead, p.colorScheme, FontLead, p.fontPairing, StyleLead, p.style, BaseClose);
  }

  /** An empty upload string is treated exactly like no upload. */
  lemma EmptyUploadIsNoUpload(p: Params, previousThumbnail: string)
    ensures RegenerationParts(RegenerateInput(p, previousThumbnail, Some("")))
         == RegenerationParts(RegenerateInput(p, previousThumbnail, None))
  {
  }

  /**
   * `regenerateThumbnailFlow`: one model call with the parts above; its image
   * URL becomes `thumbnail`, and a throw propagates.
   */
  function RegenerateThumbnailFlow(input: RegenerateInput, model: Prompt -> ModelReply): (r: FlowResult<RegenerateOutput>)
    ensures r.Returned? <==> model(Parts(RegenerationParts(input))).Generated?
    ensures r.Returned? ==> r.value.thumbnail == model(Parts(RegenerationParts(input))).url
    ensures r.Threw? ==> r.thrown == model(Parts(RegenerationParts(input))).thrown
  {
    match model(Parts(RegenerationParts(input)))
    case Generated(url) => Returned(RegenerateOutput(url))
    case Raised(thrown) => Threw(thrown)
  }
}

=== FILE: thumbnail_display.dfy ===
/**
 * Which view the result panel shows (src/components/core/thumbnail-display.tsx):
 * an early-return cascade over its props, plus the flags that disable its
 * buttons.
 */
module ThumbnailDisplay {
  import opened Common
  import Constants

  datatype Props = Props(
    thumbnailDataUri: Option<string>,
    videoTopic: string,
    isGenerating: bool,
    isRegenerating: bool,
    error: Option<string>)

  /** What covers the image while it is shown. */
  datatype Overlay = NoOverlay | RegeneratingOverlay | ErrorOverlay(message: string)

  datatype DownloadButtonProps = DownloadButtonProps(
    thumbnailDataUri: string,
    resolution: Constants.Resolution,
    filenamePrefix: string,
    disabled: bool)

  datatype View =
    | LoadingView
    | FailureView(message: string, tryAgainDisabled: bool)
    | PlaceholderView
    | ThumbnailView(
        src: string,
        overlay: Overlay,
        dimmed: bool,
        regenerateDisabled: bool,
        downloads: seq<DownloadButtonProps>)

  /** `videoTopic || "thumbnail"`. */
  function FilenamePrefix(videoTopic: string): (prefix: string)
    ensures prefix != ""
    ensures videoTopic != "" ==> prefix == videoTopic
  {
    if videoTopic != "" then videoTopic else "thumbnail"
  }

  /** A download button is inert when told so or when it has no image: `disabled || !thumbnailDataUri`. */
  function DownloadDisabled(b: DownloadButtonProps): (off: bool)
    // an enabled button always has an image to export
    ensures !off ==> b.thumbnailDataUri != ""
    ensures b.disabled ==> off
  {
    b.disabled || b.thumbnailDataUri == ""
  }

  function Display(props: Props): (v: View)
    // exactly one view, and which one
    ensures v.LoadingView? <==> props.isGenerating
    ensures v.FailureView? <==> !props.isGenerating && Truthy(props.error) && !Truthy(props.thumbnailDataUri)
    ensures v.PlaceholderView? <==> !props.isGenerating && !Truthy(props.error) && !Truthy(props.thumbnailDataUri)
    ensures v.ThumbnailView? <==> !props.isGenerating && Truthy(props.thumbnailDataUri)
    // the failure view
    ensures v.FailureView? ==> v.message == props.error.value && (v.tryAgainDisabled <==> props.isRegenerating)
    // the thumbnail view
    ensures v.ThumbnailView? ==>
      && v.src == props.thumbnailDataUri.value
      && (v.overlay == RegeneratingOverlay <==> props.isRegenerating)
      && (v.overlay.ErrorOverlay? <==> Truthy(props.error) && !props.isRegenerating)
      && (v.overlay.ErrorOverlay? ==> v.overlay.message == props.error.value)
      && (v.dimmed <==> props.isRegenerating || Truthy(props.error))
      && (v.regenerateDisabled <==> props.isRegenerating || props.isGenerating)
      && |v.downloads| == 2
      && v.downloads[0].resolution == Constants.HD
      && v.downloads[1].resolution == Constants.FHD
      && (forall i :: 0 <= i < 2 ==>
            && v.downloads[i].thumbnailDataUri == v.src
            && v.downloads[i].filenamePrefix == FilenamePrefix(props.videoTopic)
            && (DownloadDisabled(v.downloads[i])
                <==> props.isRegenerating || props.isGenerating || Truthy(props.error)))
  {
    var prefix := FilenamePrefix(props.videoTopic);
    if props.isGenerating then
      LoadingView
    else if Truthy(props.error) && !Truthy(props.thumbnailDataUri) then
      FailureView(props.error.value, props.isRegenerating)
    else if !Truthy(props.thumbnailDataUri) then
      PlaceholderView
    else
      var src := props.thumbnailDataUri.value;
      var overlay :=
        if props.isRegenerating then RegeneratingOverlay
        else if Truthy(props.error) then ErrorOverlay(props.error.value)
        else NoOverlay;
      var downloadDisabled := props.isRegenerating || props.isGenerating || Truthy(props.error);
      ThumbnailView(
        src,
        overlay,
        props.isRegenerating || (Truthy(props.error) && !props.isRegenerating),
        props.isRegenerating || props.isGenerating,
        [DownloadButtonProps(src, Constants.HD, prefix, downloadDisabled),
         DownloadButtonProps(src, Constants.FHD, prefix, downloadDisabled)])
  }

  /**
   * A failed regeneration keeps the thumbnail on screen, dimmed, with the
   * error overlaid and both downloads off; the Regenerate button stays on.
   */
  lemma FailedRegenerationKeepsThumbnail(thumbnail: string, videoTopic: string, error: string)
    requires thumbnail != "" && error != ""
    ensures var v := Display(Props(Some(thumbnail), videoTopic, false, false, Some(error)));
      && v == ThumbnailView(
           thumbnail, ErrorOverlay(error), true, false,
           [DownloadButtonProps(thumbnail, Constants.HD, FilenamePrefix(videoTopic), true),
            DownloadButtonProps(thumbnail, Constants.FHD, FilenamePrefix(videoTopic), true)])
  {
  }
}
